=== FILE: README.md ===
# Webhook provisioner: request authentication and handler, in Dafny

This project models the decision logic of an on-demand worker provisioner. The
provisioner receives a signed webhook through an HTTP gateway, authenticates it
with an HMAC scheme and then, depending on the command in the body, launches a
container worker, acknowledges a stop, or reports status.

What is modelled:

- **`Hmac`** covers `provisioner/src/hmac.ts`:
  - Header lookup is case-insensitive and scans the header record in order. An empty value counts as missing.
  - The six-line canonical request, the three-line string to sign, and the lowercase-hex HMAC signature.
  - Comparison with the received signature comes first. Only after a match is the ±900-second timestamp window applied.
  - Every failure is one of four error kinds: `MalformedRequest`, `NotAuthenticated`, `InvalidTimestamp` or `ExpiredTimestamp`.
- **`Validation`** covers `provisioner/src/validation.ts`:
  - Issue formatting: dotted path, `": "`, message, with one line per issue.
  - The three ways `withValidation` can end.
  - The fatal failure callback.
- **`Commands`** covers the `start` / `stop` / `status` enumeration of `provisioner/src/api-constants.ts`.
- **`Handler`** covers `handler` in `provisioner/src/handler.ts`:
  - The order of its stages: event shape, configuration, authentication, body parse, command.
  - Command dispatch.
  - The mapping from caught error classes to status codes 403 / 400 / 500.
- **Helper modules:**
  - `Strings`: JavaScript `join`, `split` and integer printing, with split/join round-trip lemmas.
  - `Ascii`: ASCII case mapping.
  - `Hex`: Node's lowercase `digest('hex')`, with its decoder and both round trips.
  - `Wrappers`: `Option` / `Result`.

The following cannot be evaluated in the model. Each one is a parameter, so
every property holds for every possible behaviour of it:

- SHA-256, HMAC-SHA-256 and base64 encoding. These are fields of `Hmac.Primitives`.
- The numeric reading of the timestamp header. This is `Primitives.parseNumber`.
- The schema checks. These are `ParseOutcome` values or functions.
- `JSON.parse`.
- The secret-store, parameter-store and container-service calls. These are fields of `Handler.Environment`.

Receipt time is the gateway's `timeEpoch` in integer milliseconds. Server
seconds are `timeEpoch / 1000`, and Dafny's division rounds down for a
positive divisor, exactly as `Math.floor` does.

Behaviour of the code that is easy to miss:

- Every `HmacError` becomes status 403, including `MALFORMED_REQUEST` (`provisioner/src/hmac.ts` has no separate bad-request path; see `provisioner/src/handler.ts:140-142`).
- An empty `x-rc-signed-headers` value counts as a missing header, and splitting it always yields at least one name, but the declared names themselves are never checked for being non-empty. A list such as `a;` or `;` declares an empty header name. Its lookup fails with `Header '' missing` unless a header with an empty name and a non-empty value exists.
- The configuration read happens before authentication. A failing configuration read therefore yields 500 even for a request with a bad signature.

## Model

| member | source | states |
|---|---|---|
| Hmac.FindHeader | provisioner/src/hmac.ts:25-32 | the scan finds a position exactly when some entry matches the name up to case with a non-empty value, and it is the first such entry in record order |
| Hmac.GetHeader | provisioner/src/hmac.ts:24-35 | lookup succeeds exactly when the header is present, returns a non-empty value of the first answering entry, and otherwise fails with MALFORMED_REQUEST and the message `Header '<requested name>' missing` |
| Hmac.FindHeaderIgnoresCase | provisioner/src/hmac.ts:26 | two requested names that agree up to case find the same entry |
| Hmac.GetHeaderIgnoresCase | provisioner/src/hmac.ts:26-29 | two requested names that agree up to case are both found or both missing, with the same value |
| Ascii.SameIgnoringCaseIsEquivalence | provisioner/src/hmac.ts:26 | matching names up to case is reflexive, symmetric and transitive, and a name matches its lower- and upper-cased forms |
| Hmac.FirstAbsentIsFirst | provisioner/src/hmac.ts:56-62 | the reference "first missing name" is absent exactly when every name is present, and otherwise it is a missing name with every earlier name present |
| Hmac.FirstAbsentOfRequired | provisioner/src/hmac.ts:56-62 | the first missing required header is the signature header, else the timestamp header, else the signed-headers header, else the first missing declared signed header |
| Hmac.SignedHeaderLines | provisioner/src/hmac.ts:59-63 | the header lines exist exactly when every declared name is present; then there is one `name:value` line per declared name, in declared order, using the name as declared; otherwise the error names the first missing declared header |
| Hmac.ReadAuthHeaders | provisioner/src/hmac.ts:56-63 | the header stage fails exactly when a required header is missing, naming the first in lookup order; on success it carries the signature, timestamp and signed-header values and the declared header lines |
| Strings.Split | provisioner/src/hmac.ts:59 | splitting the signed-header list yields at least one piece and no piece contains `;` |
| Strings.JoinSplit | provisioner/src/hmac.ts:59 | joining the pieces of a split with the separator restores the original string, so no declared name is lost or altered |
| Strings.SplitJoin | provisioner/src/hmac.ts:61-63 | splitting a newline join of newline-free lines gives back exactly those lines |
| Strings.JoinInjective | provisioner/src/hmac.ts:70-77 | two joins of separator-free field lists are equal only when the lists are equal |
| Ascii.UpperKeepsLineBreaks | provisioner/src/hmac.ts:71 | uppercasing the method neither adds nor removes a line break |
| Hmac.CanonicalRequestLines | provisioner/src/hmac.ts:61-77 | with line-break-free fields, the canonical request's lines are exactly: uppercased method, raw path, raw query, each `name:value` line in order, the raw signed-header list, the body digest |
| Hmac.RequestMaterialLines | provisioner/src/hmac.ts:65-77 | the material signed for a request reads back, line by line, as its uppercased method, raw path, raw query, the declared `name:value` header lines, the signed-header list as received, and the base64 SHA-256 digest of its body |
| Hmac.CanonicalRequestInjective | provisioner/src/hmac.ts:61-77 | equal canonical requests come from equal fields, so changing a signed header value, the signed-header list, the path, the query or the body digest changes the signed material |
| Hmac.StringToSignLines | provisioner/src/hmac.ts:79-83 | the string to sign consists of exactly three lines: `sha256`, the timestamp as received, and the digest of the canonical request |
| Hex.Encode | provisioner/src/hmac.ts:85-88 | the hex signature has two characters per byte, all of them lowercase hex digits |
| Hex.Decode | provisioner/src/hmac.ts:85-90 | the source never decodes; this is the reference inverse of line 88's lowercase `digest('hex')`: a string decodes exactly when it is well-formed lowercase hex (even length, digits `0-9a-f`), to half as many bytes |
| Hex.DecodeEncode | provisioner/src/hmac.ts:85-88 | decoding an encoding gives back the bytes |
| Hex.EncodeDecode | provisioner/src/hmac.ts:85-90 | a well-formed lowercase hex string is the encoding of its decoding |
| Hex.EncodeInjective | provisioner/src/hmac.ts:85-90 | two byte strings have the same hex encoding exactly when they are equal, so comparing hex signatures compares MACs |
| Hmac.SignatureMatchIsMacMatch | provisioner/src/hmac.ts:79-92 | the received signature matches exactly when it decodes to the HMAC of the string to sign |
| Hmac.NonLowerHexSignatureRejected | provisioner/src/hmac.ts:85-92 | a received signature that is not lowercase hex (uppercase hex included) never equals the expected one, so with all headers present the request counts as a signature mismatch, which `ValidateHmac` reports as NOT_AUTHENTICATED |
| Strings.NatToString | provisioner/src/hmac.ts:45 | the printed digits are decimal digits without a leading zero and denote the number itself |
| Strings.IntToString | provisioner/src/hmac.ts:45 | the printed integer starts with `-` exactly when it is negative, and the remaining digits denote its magnitude |
| Hmac.ServerSeconds | provisioner/src/hmac.ts:96 | server time is the whole number of seconds at or below the millisecond receipt time |
| Hmac.ValidateTimestamp | provisioner/src/hmac.ts:37-50 | an unreadable timestamp is INVALID_TIMESTAMP quoting the header; otherwise it is accepted exactly when the server/client difference is within -900..900 and yields the absolute difference, and a rejection is EXPIRED_TIMESTAMP with the message quoting the timestamp as received, the difference in seconds and the server time |
| Hmac.ToleranceBoundaryIsInclusive | provisioner/src/hmac.ts:6-49 | a difference of exactly 900 seconds in either direction is accepted and one of 901 is rejected |
| Hmac.ValidateHmac | provisioner/src/hmac.ts:52-102 | each error kind holds exactly when its stage is the first to fail: MALFORMED_REQUEST when a required header is missing (naming the first), NOT_AUTHENTICATED when the signature differs, INVALID_TIMESTAMP when it matches but the timestamp is unreadable, EXPIRED_TIMESTAMP when it matches but is out of window; once the signature matches, any error is exactly the timestamp check's error, message included; the result is `true` exactly when all pass |
| Hmac.MismatchIgnoresTimestamp | provisioner/src/hmac.ts:90-98 | a wrong signature yields NOT_AUTHENTICATED whatever the timestamp reads as, even unparseable or stale |
| Hmac.OutcomeDependsOnSecretOnlyThroughMatch | provisioner/src/hmac.ts:90-98 | two secrets that agree on whether the signature matches give identical results and messages, so nothing else about the secret is observable |
| Validation.FormatIssuesLines | provisioner/src/validation.ts:23-25 | with line-break-free keys and messages, the formatted message has exactly one line per issue, in the original order, each `dotted.path: message` |
| Validation.PathTextSegments | provisioner/src/validation.ts:24 | with dot-free keys, the dotted path splits back into the path's segments, array indices in decimal |
| Validation.WithValidation | provisioner/src/validation.ts:12-33 | accepted input returns the parsed data and never calls the callback; rejected input calls the callback exactly once with the formatted issues, then either propagates what it throws or returns the original input |
| Validation.OnValidationFailureFatal | provisioner/src/validation.ts:35-37 | the fatal callback always throws |
| Validation.FatalValidation | provisioner/src/validation.ts:22-37 | with the fatal callback the unvalidated input never comes back: the result is the parsed data, or a ValidationError whose message is `Validation failed: ` followed by the formatted issues |
| Commands.FromTag | provisioner/src/api-constants.ts:5-9 | a `type` value selects command `c` exactly when it equals `c`'s wire name |
| Commands.TagRoundTrip | provisioner/src/api-constants.ts:5-9 | each command is recovered from its wire name |
| Handler.ErrorResponse | provisioner/src/handler.ts:137-149 | an HmacError gives 403 with its message, a ValidationError gives 400 with its message, and anything else gives 500 `Internal server error`, each status arising from exactly that class |
| Handler.StartWorker | provisioner/src/handler.ts:66-149 | a launch is attempted exactly when the start body passes its schema and the cluster configuration and image tag are available, with the link token, workspace and runtime ids from the body and image `<repository>:<tag>`; 200 with no message exactly when that attempt succeeds; a schema rejection is 400 with the formatted issues; a valid body whose cluster read, image tag or launch fails is 500 `Internal server error` |
| Handler.Dispatch | provisioner/src/handler.ts:66-151 | `stop` is 200 with no message, `status` is 200 with `{"version":1,"status":"OK"}`, a missing or unknown `type` is 400 `Unrecognized command`, `start` runs the start branch, and only `start` can launch a worker |
| Handler.HandleBody | provisioner/src/handler.ts:64-136 | the body stage never answers 403; any worker it launches comes from a body parsed as a `start` command that passed the start schema, and carries that command's link token, workspace and runtime ids and the image `<repository>:<tag>` from the configuration passed in and the image-tag variable |
| Handler.HandleEvent | provisioner/src/handler.ts:51-64 | after the event check, a failing configuration read is 500 `Internal server error` whatever the signature; the response is 403 exactly when the configuration was read and authentication rejected, and then it carries the authentication error's message; a 200 or a launch implies authentication passed |
| Handler.Handle | provisioner/src/handler.ts:30-152 | every response is 200, 400, 403 or 500; an invalid event is 400 with the formatted issues; a valid event whose configuration read fails is 500 `Internal server error`; the response is 403 exactly when authentication ran and rejected, carrying its message; a 200 implies authentication passed; a launch implies an authenticated start command with a valid body, whose ids it carries, and runs the image `<repository>:<tag>` from the configuration that was read and the image-tag variable |
| Handler.AuthenticationPrecedesBody | provisioner/src/handler.ts:39-64 | once authentication rejects, the body parser, start schema, cluster, image tag and provisioner cannot change the response, which is 403 |
| Handler.AuthenticatedReachesBody | provisioner/src/handler.ts:39-64 | once the event is valid and authentication accepts it, the response is the body stage's response for that event body alone |
| Handler.CommandResponses | provisioner/src/handler.ts:104-151 | in the body stage, `stop` is 200 with no message, `status` is 200 with `{"version":1,"status":"OK"}`, a body whose `type` is missing or names no command is 400 `Unrecognized command`, and a body that does not parse or parses to `null` is 500 |
| Handler.StartResponses | provisioner/src/handler.ts:66-149 | in the body stage, a start command whose body fails the schema is 400 `Validation failed: ` with the formatted issues and launches nothing; a start attempts a launch exactly when its body passes the schema and the cluster configuration and image tag are available; it is 200, with no message, exactly when that attempt succeeded; a valid start with no attempt or a failed attempt is 500 `Internal server error` |

## Left out

- SHA-256, HMAC-SHA-256 and base64 (`provisioner/src/hmac.ts:65-88`): these are function parameters, not implementations. Collision resistance is not assumed, so "tampering causes NOT_AUTHENTICATED" is proved only up to the canonical request changing (`Hmac.CanonicalRequestInjective`).
- Timing-safe comparison: the source compares signatures with plain `!==`, and the model does the same without considering timing.
- JavaScript `Number()` and floating point in `validateTimestamp`: the reading of the header is a parameter returning an integer or nothing. Integral readings of any notation (`Number("0x10")` is 16) are possible values of that parameter; fractional and infinite readings are not modelled, and neither is a fractional `timeEpoch`.
- Hmac.ValidateTimestamp: states the window over integer seconds only, because the numeric reading is abstract. Its EXPIRED_TIMESTAMP message prints the difference and server time in plain decimal, which is what JavaScript prints only for magnitudes below 10^21.
- Unicode case mapping: `toLowerCase`/`toUpperCase` are ASCII case mapping.
- Record iteration order: headers are a sequence in the record's iteration order. JavaScript's rule of listing integer-like keys first is not modelled.
- Validation.WithValidation: the callback receives only the formatted message; its second argument, the schema error object, is dropped, since the only callback in the core (`onValidationFailureFatal`) ignores it.
- Zod schemas (`provisioner/src/validation.ts:43-63`) and `safeParse`: the schema outcome (data or issues) is an input. The start schema is applied to the body text, which determines the parsed value.
- Secret-store, parameter-store and container-service calls and their process-wide caches (`provisioner/src/dependencies.ts`, `provisioner/src/ecs.ts`): each is a field of `Handler.Environment` that succeeds or fails. Failures of the cluster read, the image-tag variable and the launch are all 500, like any other error.
- `eventBridgeHandler` (`provisioner/src/handler.ts:154-194`): dispatch plumbing with no checks.
- Task definition building and hashing (`provisioner/src/ecs-container-profiles.ts`) and payload decryption (`provisioner/src/encryption.ts`): fixed configuration and a library wrapper.
- `parseEnvVariable` (`provisioner/src/utils.ts`): environment reads are `Option` fields of the environment.
- Logging and the JSON serialisation of the response body in `buildResponse` (`provisioner/src/handler.ts:18-28`): a response is a status code and an optional message.
- Error objects thrown by `JSON.parse`, by reading `type` of `null`, or by the AWS calls are all one "other" class, because the handler treats them alike.

=== FILE: ascii.dfy ===
/** ASCII case mapping, standing in for JavaScript's `toLowerCase` and
    `toUpperCase`. */
module Ascii {

  function LowerChar(c: char): char
  {
    if 'A' <= c <= 'Z' then (c as int + 32) as char else c
  }

  function UpperChar(c: char): char
  {
    if 'a' <= c <= 'z' then (c as int - 32) as char else c
  }

  function Lower(s: string): string
  {
    seq(|s|, i requires 0 <= i < |s| => LowerChar(s[i]))
  }

  function Upper(s: string): string
  {
    seq(|s|, i requires 0 <= i < |s| => UpperChar(s[i]))
  }

  /** Two names are the same header name when they agree up to letter case. */
  predicate SameIgnoringCase(a: string, b: string)
  {
    Lower(a) == Lower(b)
  }

  /** Case mapping only touches letters: a line break survives it and none
      appears. */
  lemma UpperKeepsLineBreaks(s: string)
    ensures '\n' in Upper(s) <==> '\n' in s
  {
    if '\n' in s {
      var i :| 0 <= i < |s| && s[i] == '\n';
      assert Upper(s)[i] == '\n';
    }
  }

  /** Ignoring case is an equivalence on names, and a name agrees with its
      upper- and lower-cased forms. */
  lemma SameIgnoringCaseIsEquivalence(a: string, b: string, c: string)
    ensures SameIgnoringCase(a, a)
    ensures SameIgnoringCase(a, b) ==> SameIgnoringCase(b, a)
    ensures SameIgnoringCase(a, b) && SameIgnoringCase(b, c) ==> SameIgnoringCase(a, c)
    ensures SameIgnoringCase(a, Lower(a)) && SameIgnoringCase(a, Upper(a))
  {
    assert Lower(Lower(a)) == Lower(a);
    assert Lower(Upper(a)) == Lower(a);
  }
}

=== FILE: commands.dfy ===
/** The commands the webhook body can carry in its `type` field. */
module Commands {
  import opened Wrappers

  datatype Command = Start | Stop | Status

  /** The wire name of a command. */
  function Tag(c: Command): string
  {
    match c
    case Start => "start"
    case Stop => "stop"
    case Status => "status"
  }

  /** The command a `type` value names, compared exactly (case matters), or
      `None` for an unrecognised value. */
  function FromTag(tag: string): (r: Option<Command>)
    ensures forall c :: r == Some(c) <==> Tag(c) == tag
  {
    if tag == Tag(Start) then Some(Start)
    else if tag == Tag(Stop) then Some(Stop)
    else if tag == Tag(Status) then Some(Status)
    else None
  }

  /** Wire names are distinct, so each command is recovered from its name. */
  lemma TagRoundTrip(c: Command)
    ensures FromTag(Tag(c)) == Some(c)
  {
  }
}

=== FILE: handler.dfy ===
/** The HTTP entry point: event-shape validation, configuration, request
    authentication, body parsing and command dispatch, with every failure
    mapped to a status code. The AWS calls and the JSON and schema parsers
    are inputs. */
module Handler {
  import opened Wrappers
  import opened Hmac
  import opened Validation
  import opened Commands

  const InternalErrorMessage: string := "Internal server error"
  const UnrecognizedCommandMessage: string := "Unrecognized command"
  /** `JSON.stringify({version: 1, status: 'OK'})`. */
  const StatusReport: string := "{\"version\":1,\"status\":\"OK\"}"

  datatype ProvisionerConfiguration = ProvisionerConfiguration(
    secret: string,
    clusterConfigParameterArn: string,
    ecrRepositoryUrl: string)

  /** Version 1 of the start command's body. */
  datatype StartCommand = StartCommand(runtimeLinkToken: string, workspaceId: string, runtimeId: string)

  /** What is handed to the worker provisioner. */
  datatype WorkerRequest = WorkerRequest(linkToken: string, workspaceId: string, workerId: string, imageUri: string)

  /** A parsed body, as far as dispatch looks at it: `null` (whose `type`
      cannot be read) or any other value, with its `type` property when that
      is a string. */
  datatype Json = JsonNull | NonNull(typeTag: Option<string>)

  /** Everything outside the handler's own logic. `eventSchema` and
      `startSchema` are the schema checks; `configuration` is the secret-store
      read (`None` when it throws); `parseJson` is `JSON.parse` (`None` when it
      throws); `clusterConfigured` says the cluster parameter read succeeds;
      `imageTag` is the image-tag environment variable; `provisionWorker`
      answers whether launching the worker succeeds. */
  datatype Environment<!E> = Environment(
    eventSchema: E -> ParseOutcome<ApiRequest>,
    configuration: Option<ProvisionerConfiguration>,
    primitives: Primitives,
    parseJson: string -> Option<Json>,
    startSchema: string -> ParseOutcome<StartCommand>,
    clusterConfigured: bool,
    imageTag: Option<string>,
    provisionWorker: WorkerRequest -> bool)

  /** A gateway response: status code and the optional `message` of its body. */
  datatype Response = Response(statusCode: int, message: Option<string>)

  /** The classes of error the handler catches. */
  datatype Thrown = ThrownHmac(hmac: HmacError) | ThrownValidation(validation: ValidationError) | ThrownOther

  /** One handled request: the response and the worker launch it attempted, if any. */
  datatype Invocation = Invocation(response: Response, launched: Option<WorkerRequest>)

  /** The catch block: authentication errors are 403, validation errors 400,
      anything else 500 with a fixed message. */
  function ErrorResponse(err: Thrown): (r: Response)
    ensures r.statusCode == 403 <==> err.ThrownHmac?
    ensures r.statusCode == 400 <==> err.ThrownValidation?
    ensures r.statusCode == 500 <==> err.ThrownOther?
    ensures err.ThrownHmac? ==> r.message == Some(err.hmac.message)
    ensures err.ThrownValidation? ==> r.message == Some(err.validation.message)
    ensures err.ThrownOther? ==> r.message == Some(InternalErrorMessage)
  {
    match err
    case ThrownHmac(e) => Response(403, Some(e.message))
    case ThrownValidation(e) => Response(400, Some(e.message))
    case ThrownOther => Response(500, Some(InternalErrorMessage))
  }

  function Rejects(err: Thrown): Invocation
  {
    Invocation(ErrorResponse(err), None)
  }

  function Responds(response: Response): Invocation
  {
    Invocation(response, None)
  }

  // ---------------------------------------------------------------- stages

  predicate EventAccepted<E>(rawEvent: E, env: Environment<E>)
  {
    env.eventSchema(rawEvent).Parsed?
  }

  /** The request reached authentication, which rejected it. */
  predicate HmacRejected<E>(rawEvent: E, env: Environment<E>)
  {
    && EventAccepted(rawEvent, env) && env.configuration.Some?
    && ValidateHmac(env.eventSchema(rawEvent).data, env.configuration.value.secret, env.primitives).Failure?
  }

  /** The request reached authentication, which accepted it. */
  predicate Authenticated<E>(rawEvent: E, env: Environment<E>)
  {
    && EventAccepted(rawEvent, env) && env.configuration.Some?
    && ValidateHmac(env.eventSchema(rawEvent).data, env.configuration.value.secret, env.primitives).Success?
  }

  /** The body of an authenticated request parses to a non-null value whose
      `type` names `c`. */
  predicate CommandIs<E>(rawEvent: E, env: Environment<E>, c: Command)
  {
    && Authenticated(rawEvent, env)
    && var parsed := env.parseJson(env.eventSchema(rawEvent).data.body);
       parsed.Some? && parsed.value.NonNull? && parsed.value.typeTag == Some(Tag(c))
  }

  /** The start branch: validate the body, read the cluster configuration,
      build the worker request and launch it. */
  function StartWorker<E>(body: string, config: ProvisionerConfiguration, env: Environment<E>): (run: Invocation)
    ensures run.launched.Some? <==>
              env.startSchema(body).Parsed? && env.clusterConfigured && env.imageTag.Some?
    ensures run.launched.Some? ==>
              var cmd := env.startSchema(body).data;
              run.launched.value == WorkerRequest(cmd.runtimeLinkToken, cmd.workspaceId, cmd.runtimeId,
                                                  config.ecrRepositoryUrl + ":" + env.imageTag.value)
    ensures run.response.statusCode == 200 <==> run.launched.Some? && env.provisionWorker(run.launched.value)
    ensures run.response.statusCode == 200 ==> run.response.message.None?
    ensures env.startSchema(body).Rejected? ==>
              run.response == Response(400, Some("Validation failed: " + FormatIssues(env.startSchema(body).issues)))
    ensures env.startSchema(body).Parsed? && run.response.statusCode != 200 ==>
              run.response == ErrorResponse(ThrownOther)
  {
    match WithValidation(env.startSchema(body), body, OnValidationFailureFatal)
    case Threw(e, _) => Rejects(ThrownValidation(e))
    case ReturnedInput(_, _) => assert false; Rejects(ThrownOther)
    case Valid(cmd) =>
      if !env.clusterConfigured then Rejects(ThrownOther)
      else match env.imageTag
        case None => Rejects(ThrownOther)
        case Some(tag) =>
          var request := WorkerRequest(cmd.runtimeLinkToken, cmd.workspaceId, cmd.runtimeId,
                                       config.ecrRepositoryUrl + ":" + tag);
          if env.provisionWorker(request) then Invocation(Response(200, None), Some(request))
          else Invocation(ErrorResponse(ThrownOther), Some(request))
  }

  /** Dispatch on the body's `type`. */
  function Dispatch<E>(typeTag: Option<string>, body: string, config: ProvisionerConfiguration, env: Environment<E>)
    : (run: Invocation)
    ensures typeTag.None? || FromTag(typeTag.value).None? ==>
              run == Responds(Response(400, Some(UnrecognizedCommandMessage)))
    ensures typeTag == Some(Tag(Stop)) ==> run == Responds(Response(200, None))
    ensures typeTag == Some(Tag(Status)) ==> run == Responds(Response(200, Some(StatusReport)))
    ensures typeTag == Some(Tag(Start)) ==> run == StartWorker(body, config, env)
    ensures run.launched.Some? ==> typeTag == Some(Tag(Start))
  {
    match typeTag
    case None => Responds(Response(400, Some(UnrecognizedCommandMessage)))
    case Some(tag) =>
      match FromTag(tag)
      case Some(Start) => StartWorker(body, config, env)
      case Some(Stop) => Responds(Response(200, None))
      case Some(Status) => Responds(Response(200, Some(StatusReport)))
      case None => Responds(Response(400, Some(UnrecognizedCommandMessage)))
  }

  /** The authenticated part: parse the body and dispatch on its `type`. A
      body that does not parse, or parses to `null`, is an internal error. */
  function HandleBody<E>(body: string, config: ProvisionerConfiguration, env: Environment<E>): (run: Invocation)
    ensures run.response.statusCode in {200, 400, 500}
    ensures run.launched.Some? ==>
              && env.parseJson(body) == Some(NonNull(Some(Tag(Start))))
              && env.startSchema(body).Parsed?
              && run.launched.value.linkToken == env.startSchema(body).data.runtimeLinkToken
              && run.launched.value.workspaceId == env.startSchema(body).data.workspaceId
              && run.launched.value.workerId == env.startSchema(body).data.runtimeId
              && env.imageTag.Some?
              && run.launched.value.imageUri == config.ecrRepositoryUrl + ":" + env.imageTag.value
  {
    match env.parseJson(body)
    case None => Rejects(ThrownOther)
    case Some(JsonNull) => Rejects(ThrownOther)
    case Some(NonNull(typeTag)) => Dispatch(typeTag, body, config, env)
  }

  /** Everything after the event-shape check: read the configuration,
      authenticate, then handle the body. */
  function HandleEvent<E>(event: ApiRequest, env: Environment<E>): (run: Invocation)
    ensures run.response.statusCode in {200, 400, 403, 500}
    ensures run.response.statusCode == 403 <==>
              env.configuration.Some? && ValidateHmac(event, env.configuration.value.secret, env.primitives).Failure?
    ensures env.configuration.Some? && ValidateHmac(event, env.configuration.value.secret, env.primitives).Failure?
            ==> run == Rejects(ThrownHmac(ValidateHmac(event, env.configuration.value.secret, env.primitives).error))
    ensures run.response.statusCode == 200 || run.launched.Some? ==>
              env.configuration.Some? && ValidateHmac(event, env.configuration.value.secret, env.primitives).Success?
    ensures env.configuration.None? ==> run == Rejects(ThrownOther)
  {
    match env.configuration
    case None => Rejects(ThrownOther)
    case Some(config) =>
      match ValidateHmac(event, config.secret, env.primitives)
      case Failure(e) => Rejects(ThrownHmac(e))
      case Success(_) => HandleBody(event.body, config, env)
  }

  /** Handles one gateway event. The stages run in a fixed order (event shape,
      configuration, authentication, body, command), so an invalid event is
      always a 400, an authentication failure always a 403 whatever the body,
      and no worker is launched unless the request authenticated and carried a
      valid start command. */
  function Handle<E>(rawEvent: E, env: Environment<E>): (run: Invocation)
    ensures run.response.statusCode in {200, 400, 403, 500}
    ensures !EventAccepted(rawEvent, env) ==>
              run == Responds(Response(400, Some("Validation failed: " + FormatIssues(env.eventSchema(rawEvent).issues))))
    ensures run.response.statusCode == 403 <==> HmacRejected(rawEvent, env)
    ensures HmacRejected(rawEvent, env) ==>
              run == Rejects(ThrownHmac(ValidateHmac(env.eventSchema(rawEvent).data,
                                                     env.configuration.value.secret, env.primitives).error))
    ensures EventAccepted(rawEvent, env) && env.configuration.None? ==> run == Rejects(ThrownOther)
    ensures run.response.statusCode == 200 ==> Authenticated(rawEvent, env)
    ensures run.launched.Some? ==>
              && CommandIs(rawEvent, env, Start)
              && var body := env.eventSchema(rawEvent).data.body;
                 && env.startSchema(body).Parsed?
                 && run.launched.value.linkToken == env.startSchema(body).data.runtimeLinkToken
                 && run.launched.value.workspaceId == env.startSchema(body).data.workspaceId
                 && run.launched.value.workerId == env.startSchema(body).data.runtimeId
                 && env.configuration.Some? && env.imageTag.Some?
                 && run.launched.value.imageUri == env.configuration.value.ecrRepositoryUrl + ":" + env.imageTag.value
  {
    match WithValidation(env.eventSchema(rawEvent), rawEvent, OnValidationFailureFatal)
    case Threw(e, _) => Rejects(ThrownValidation(e))
    case ReturnedInput(_, _) => assert false; Rejects(ThrownOther)
    case Valid(event) =>
      var run := HandleEvent(event, env);
      assert run.launched.Some? ==> env.configuration.Some? && HandleBody(event.body, env.configuration.value, env) == run;
      run
  }

  // ---------------------------------------------------------------- ordering

  /** Authentication runs before the body is looked at: once it rejects, the
      body parser, the start schema, the cluster, the image tag and the
      provisioner make no difference to the response. */
  lemma AuthenticationPrecedesBody<E>(rawEvent: E, env1: Environment<E>, env2: Environment<E>)
    requires env1.eventSchema == env2.eventSchema
    requires env1.configuration == env2.configuration && env1.primitives == env2.primitives
    ensures HmacRejected(rawEvent, env1) ==>
              && Handle(rawEvent, env1) == Handle(rawEvent, env2)
              && Handle(rawEvent, env1).response.statusCode == 403
  {
  }

  /** An authenticated request is handled by the body stage alone. */
  lemma AuthenticatedReachesBody<E>(rawEvent: E, env: Environment<E>)
    ensures Authenticated(rawEvent, env) ==>
              Handle(rawEvent, env)
              == HandleBody(env.eventSchema(rawEvent).data.body, env.configuration.value, env)
  {
    if Authenticated(rawEvent, env) {
      var event := env.eventSchema(rawEvent).data;
      FatalValidation(env.eventSchema(rawEvent), rawEvent);
      assert Handle(rawEvent, env) == HandleEvent(event, env);
    }
  }

  /** Commands after authentication: `stop` is 200 with no message, `status`
      is 200 with the status report, and a `type` that names no command is
      400. */
  lemma CommandResponses<E>(body: string, config: ProvisionerConfiguration, env: Environment<E>)
    ensures env.parseJson(body) == Some(NonNull(Some(Tag(Stop)))) ==>
              HandleBody(body, config, env) == Responds(Response(200, None))
    ensures env.parseJson(body) == Some(NonNull(Some(Tag(Status)))) ==>
              HandleBody(body, config, env) == Responds(Response(200, Some(StatusReport)))
    ensures env.parseJson(body).Some? && env.parseJson(body).value.NonNull?
            && (env.parseJson(body).value.typeTag.None? || FromTag(env.parseJson(body).value.typeTag.value).None?)
            ==> HandleBody(body, config, env) == Responds(Response(400, Some(UnrecognizedCommandMessage)))
    ensures env.parseJson(body).None? || env.parseJson(body) == Some(JsonNull) ==>
              HandleBody(body, config, env) == Rejects(ThrownOther)
  {
  }

  /** A start command that fails its schema is 400 with the formatted issues
      and launches nothing; a start command launches a worker exactly when its
      body passes the schema and the cluster and image tag are available; it is 200, with no message, exactly
      when a launch happened and succeeded; a valid start that does not reach
      a successful launch is 500 `Internal server error`. */
  lemma StartResponses<E>(body: string, config: ProvisionerConfiguration, env: Environment<E>)
    ensures env.parseJson(body) == Some(NonNull(Some(Tag(Start)))) && env.startSchema(body).Rejected? ==>
              HandleBody(body, config, env)
              == Responds(Response(400, Some("Validation failed: " + FormatIssues(env.startSchema(body).issues))))
    ensures env.parseJson(body) == Some(NonNull(Some(Tag(Start)))) ==>
              (HandleBody(body, config, env).response.statusCode == 200 <==>
                 && HandleBody(body, config, env).launched.Some?
                 && env.provisionWorker(HandleBody(body, config, env).launched.value))
    ensures env.parseJson(body) == Some(NonNull(Some(Tag(Start)))) ==>
              (HandleBody(body, config, env).launched.Some? <==>
                 env.startSchema(body).Parsed? && env.clusterConfigured && env.imageTag.Some?)
    ensures env.parseJson(body) == Some(NonNull(Some(Tag(Start)))) && HandleBody(body, config, env).response.statusCode == 200
            ==> HandleBody(body, config, env).response.message.None?
    ensures env.parseJson(body) == Some(NonNull(Some(Tag(Start)))) && env.startSchema(body).Parsed?
            && HandleBody(body, config, env).response.statusCode != 200
            ==> HandleBody(body, config, env).response == ErrorResponse(ThrownOther)
  {
  }
}

=== FILE: hex.dfy ===
/** Lowercase hexadecimal encoding of bytes, as produced by Node's
    `digest('hex')`, with the matching decoder. */
module Hex {
  import opened Wrappers

  newtype byte = x: int | 0 <= x < 256

  /** The lowercase hex digit for a nibble. */
  function HexDigit(n: nat): (c: char)
    requires n < 16
    ensures IsHexDigit(c)
  {
    if n < 10 then ('0' as int + n) as char else ('a' as int + n - 10) as char
  }

  predicate IsHexDigit(c: char)
  {
    '0' <= c <= '9' || 'a' <= c <= 'f'
  }

  /** The nibble a lowercase hex digit denotes; uppercase digits are not
      digits of this encoding. */
  function DigitValue(c: char): (r: Option<nat>)
    ensures r.Some? <==> IsHexDigit(c)
    ensures r.Some? ==> r.value < 16 && HexDigit(r.value) == c
  {
    if '0' <= c <= '9' then Some(c as int - '0' as int)
    else if 'a' <= c <= 'f' then Some(c as int - 'a' as int + 10)
    else None
  }

  /** Two lowercase hex digits per byte, high nibble first. */
  function Encode(bytes: seq<byte>): (s: string)
    ensures |s| == 2 * |bytes|
    ensures forall i :: 0 <= i < |s| ==> IsHexDigit(s[i])
  {
    if |bytes| == 0 then ""
    else [HexDigit(bytes[0] as int / 16), HexDigit(bytes[0] as int % 16)] + Encode(bytes[1..])
  }

  /** The bytes a lowercase hex string denotes, or `None` when its length is
      odd or it holds a character outside `0-9a-f`. */
  function Decode(s: string): (r: Option<seq<byte>>)
    ensures r.Some? <==> IsLowerHex(s)
    ensures r.Some? ==> 2 * |r.value| == |s|
  {
    assert |s| >= 2 ==> forall i :: 0 <= i < |s[2..]| ==> s[2..][i] == s[i + 2];
    if |s| == 0 then Some([])
    else if |s| == 1 then None
    else match (DigitValue(s[0]), DigitValue(s[1]), Decode(s[2..]))
      case (Some(hi), Some(lo), Some(rest)) => Some([(hi * 16 + lo) as byte] + rest)
      case _ => None
  }

  /** A well-formed encoding: even length, lowercase hex digits only. */
  predicate IsLowerHex(s: string)
  {
    |s| % 2 == 0 && forall i :: 0 <= i < |s| ==> IsHexDigit(s[i])
  }

  lemma {:induction false} DecodeEncode(bytes: seq<byte>)
    ensures Decode(Encode(bytes)) == Some(bytes)
  {
    if |bytes| > 0 {
      var s := Encode(bytes);
      var b := bytes[0] as int;
      DigitValueOfHexDigit(b / 16);
      DigitValueOfHexDigit(b % 16);
      assert s[2..] == Encode(bytes[1..]);
      DecodeEncode(bytes[1..]);
      assert bytes == [bytes[0]] + bytes[1..];
    }
  }

  lemma DigitValueOfHexDigit(n: nat)
    requires n < 16
    ensures DigitValue(HexDigit(n)) == Some(n)
  {
  }

  lemma Nibbles(hi: nat, lo: nat)
    requires hi < 16 && lo < 16
    ensures (hi * 16 + lo) / 16 == hi && (hi * 16 + lo) % 16 == lo
  {
  }

  lemma {:induction false} EncodeDecode(s: string)
    requires IsLowerHex(s)
    ensures Decode(s).Some? && Encode(Decode(s).value) == s
    decreases |s|
  {
    if |s| > 0 {
      assert IsLowerHex(s[2..]) by {
        assert forall i :: 0 <= i < |s[2..]| ==> s[2..][i] == s[i + 2];
      }
      EncodeDecode(s[2..]);
      var hi := DigitValue(s[0]).value;
      var lo := DigitValue(s[1]).value;
      var b := (hi * 16 + lo) as byte;
      var rest := Decode(s[2..]).value;
      assert Decode(s) == Some([b] + rest);
      Nibbles(hi, lo);
      assert ([b] + rest)[1..] == rest;
      assert Encode([b] + rest) == [s[0], s[1]] + Encode(rest);
      assert s == [s[0], s[1]] + s[2..];
    }
  }

  /** Different byte strings never encode alike, so comparing encodings is
      comparing bytes. */
  lemma EncodeInjective(a: seq<byte>, b: seq<byte>)
    ensures Encode(a) == Encode(b) <==> a == b
  {
    if Encode(a) == Encode(b) {
      DecodeEncode(a);
      DecodeEncode(b);
    }
  }
}

=== FILE: hmac.dfy ===
/** The webhook request authenticator: header lookup, canonical request,
    string to sign, signature comparison and the timestamp window, ending in
    acceptance or one of four error kinds. */
module Hmac {
  import opened Wrappers
  import opened Strings
  import opened Ascii
  import Hex

  const HmacDigestAlgorithm: string := "sha256"
  const TimestampToleranceSeconds: nat := 15 * 60

  const SignatureHeader: string := "x-rc-signature"
  const TimestampHeader: string := "x-rc-timestamp"
  const SignedHeadersHeader: string := "x-rc-signed-headers"

  const SignatureMismatchMessage: string := "HMAC signature mismatch"

  /** One entry of the request's header record, in the record's iteration order. */
  datatype Header = Header(name: string, value: string)

  /** The fields of a gateway event that the authenticator reads. `timeEpoch` is
      the gateway's receipt time in milliseconds. */
  datatype ApiRequest = ApiRequest(
    timeEpoch: int,
    httpMethod: string,
    headers: seq<Header>,
    rawPath: string,
    rawQueryString: string,
    body: string)

  /** Primitives the authenticator calls but does not define: SHA-256 and
      HMAC-SHA-256 over the UTF-8 bytes of their string arguments (the HMAC
      key first), base64 encoding, and the numeric reading of the timestamp
      header (`None` where the reading is not a number). */
  datatype Primitives = Primitives(
    sha256: string -> seq<Hex.byte>,
    hmacSha256: (string, string) -> seq<Hex.byte>,
    base64: seq<Hex.byte> -> string,
    parseNumber: string -> Option<int>)

  datatype HmacErrorType = MalformedRequest | NotAuthenticated | InvalidTimestamp | ExpiredTimestamp

  datatype HmacError = HmacError(message: string, kind: HmacErrorType)

  function MissingHeader(name: string): HmacError
  {
    HmacError("Header '" + name + "' missing", MalformedRequest)
  }

  function Abs(x: int): nat
  {
    if x < 0 then -x else x
  }

  // ---------------------------------------------------------------- header lookup

  /** A header entry answers a lookup of `name` when the names agree up to case
      and its value is non-empty (an empty value is falsy). */
  predicate Answers(h: Header, name: string)
  {
    SameIgnoringCase(h.name, name) && h.value != ""
  }

  predicate Present(headers: seq<Header>, name: string)
  {
    exists i :: 0 <= i < |headers| && Answers(headers[i], name)
  }

  /** The scan of the header record: the position of the first entry that
      answers `name`. */
  function FindHeader(headers: seq<Header>, name: string): (r: Option<nat>)
    ensures r.None? <==> !Present(headers, name)
    ensures r.Some? ==> r.value < |headers| && Answers(headers[r.value], name)
    ensures r.Some? ==> forall j :: 0 <= j < r.value ==> !Answers(headers[j], name)
  {
    if |headers| == 0 then None
    else if Answers(headers[0], name) then Some(0)
    else match FindHeader(headers[1..], name)
      case None => None
      case Some(k) => Some(k + 1)
  }

  /** The value of the first entry answering `name`, or the malformed-request
      error naming `name` as requested. */
  function GetHeader(headers: seq<Header>, name: string): (r: Result<string, HmacError>)
    ensures r.Success? <==> Present(headers, name)
    ensures r.Success? ==> r.value != ""
    ensures r.Success? ==> r.value == headers[FindHeader(headers, name).value].value
    ensures r.Failure? ==> r.error == MissingHeader(name)
  {
    match FindHeader(headers, name)
    case Some(i) => Success(headers[i].value)
    case None => Failure(MissingHeader(name))
  }

  /** Lookup only sees the requested name up to case. */
  lemma {:induction false} FindHeaderIgnoresCase(headers: seq<Header>, a: string, b: string)
    requires SameIgnoringCase(a, b)
    ensures FindHeader(headers, a) == FindHeader(headers, b)
  {
    if |headers| > 0 {
      FindHeaderIgnoresCase(headers[1..], a, b);
    }
  }

  /** The first name of `names` that lookup does not find. */
  function FirstAbsent(headers: seq<Header>, names: seq<string>): Option<string>
  {
    if |names| == 0 then None
    else if !Present(headers, names[0]) then Some(names[0])
    else FirstAbsent(headers, names[1..])
  }

  /** `FirstAbsent` finds a missing name exactly when one exists, and it is the
      earliest one. */
  lemma {:induction false} FirstAbsentIsFirst(headers: seq<Header>, names: seq<string>)
    ensures FirstAbsent(headers, names).None? <==> forall i :: 0 <= i < |names| ==> Present(headers, names[i])
    ensures FirstAbsent(headers, names).Some? ==>
              exists k :: 0 <= k < |names| && names[k] == FirstAbsent(headers, names).value
                          && !Present(headers, names[k])
                          && forall j :: 0 <= j < k ==> Present(headers, names[j])
  {
    if |names| > 0 {
      FirstAbsentIsFirst(headers, names[1..]);
      if Present(headers, names[0]) && FirstAbsent(headers, names).Some? {
        var k :| 0 <= k < |names[1..]| && names[1..][k] == FirstAbsent(headers, names[1..]).value
                 && !Present(headers, names[1..][k])
                 && forall j :: 0 <= j < k ==> Present(headers, names[1..][j]);
        assert names[k + 1] == names[1..][k];
        assert forall j :: 0 <= j < k + 1 ==> Present(headers, names[j]) by {
          forall j | 0 <= j < k + 1
            ensures Present(headers, names[j])
          {
            if j > 0 {
              assert names[j] == names[1..][j - 1];
            }
          }
        }
      }
      if FirstAbsent(headers, names).None? {
        assert forall i :: 0 <= i < |names| ==> Present(headers, names[i]) by {
          forall i | 0 <= i < |names|
            ensures Present(headers, names[i])
          {
            if i > 0 {
              assert names[i] == names[1..][i - 1];
            }
          }
        }
      }
    }
  }

  lemma {:induction false} FirstAbsentAppend(headers: seq<Header>, a: seq<string>, b: seq<string>)
    ensures FirstAbsent(headers, a + b)
         == if FirstAbsent(headers, a).Some? then FirstAbsent(headers, a) else FirstAbsent(headers, b)
  {
    if |a| > 0 {
      assert (a + b)[1..] == a[1..] + b;
      FirstAbsentAppend(headers, a[1..], b);
    } else {
      assert a + b == b;
    }
  }

  // ---------------------------------------------------------------- canonical request

  function HeaderLine(name: string, value: string): string
  {
    name + ":" + value
  }

  /** The `name:value` lines for the declared signed headers, in declared
      order; the first declared name that lookup misses is the error. */
  function SignedHeaderLines(headers: seq<Header>, names: seq<string>): (r: Result<seq<string>, HmacError>)
    ensures r.Success? <==> FirstAbsent(headers, names).None?
    ensures r.Failure? ==> r.error == MissingHeader(FirstAbsent(headers, names).value)
    ensures r.Success? ==> |r.value| == |names|
    ensures r.Success? ==> forall i :: 0 <= i < |names| ==>
                             && Present(headers, names[i])
                             && r.value[i] == HeaderLine(names[i], GetHeader(headers, names[i]).value)
  {
    if |names| == 0 then Success([])
    else
      var value :- GetHeader(headers, names[0]);
      var rest :- SignedHeaderLines(headers, names[1..]);
      Success([HeaderLine(names[0], value)] + rest)
  }

  /** The six newline-separated fields that are signed. */
  function CanonicalRequest(httpMethod: string, rawPath: string, rawQueryString: string,
                            headerLines: seq<string>, signedHeaders: string, bodyDigest: string): string
  {
    Join([Upper(httpMethod), rawPath, rawQueryString, Join(headerLines, "\n"), signedHeaders, bodyDigest], "\n")
  }

  /** The canonical request read back line by line: when no field holds a line
      break and at least one header is signed, its lines are exactly the
      uppercased method, path, query, each header line, the signed-header list
      and the body digest. */
  lemma CanonicalRequestLines(httpMethod: string, rawPath: string, rawQueryString: string,
                              headerLines: seq<string>, signedHeaders: string, bodyDigest: string)
    requires |headerLines| >= 1
    requires forall i :: 0 <= i < |headerLines| ==> '\n' !in headerLines[i]
    requires '\n' !in httpMethod && '\n' !in rawPath && '\n' !in rawQueryString
    requires '\n' !in signedHeaders && '\n' !in bodyDigest
    ensures Split(CanonicalRequest(httpMethod, rawPath, rawQueryString, headerLines, signedHeaders, bodyDigest), '\n')
         == [Upper(httpMethod), rawPath, rawQueryString] + headerLines + [signedHeaders, bodyDigest]
  {
    var front := [Upper(httpMethod), rawPath, rawQueryString];
    var back := [signedHeaders, bodyDigest];
    assert [Upper(httpMethod), rawPath, rawQueryString, Join(headerLines, "\n"), signedHeaders, bodyDigest]
        == front + [Join(headerLines, "\n")] + back;
    JoinFlatten(front, headerLines, back, "\n");
    UpperKeepsLineBreaks(httpMethod);
    var all := front + headerLines + back;
    assert forall i :: 0 <= i < |all| ==> '\n' !in all[i] by {
      forall i | 0 <= i < |all|
        ensures '\n' !in all[i]
      {
        if i >= 3 && i < 3 + |headerLines| {
          assert all[i] == headerLines[i - 3];
        }
      }
    }
    SplitJoin(all, '\n');
  }

  /** Distinct line-break-free fields give distinct canonical requests: a
      change to any signed header value, to the signed-header list, the path,
      the query or the body digest changes the signed material. */
  lemma CanonicalRequestInjective(m1: string, p1: string, q1: string, l1: seq<string>, s1: string, d1: string,
                                  m2: string, p2: string, q2: string, l2: seq<string>, s2: string, d2: string)
    requires |l1| >= 1 && |l2| >= 1
    requires forall i :: 0 <= i < |l1| ==> '\n' !in l1[i]
    requires forall i :: 0 <= i < |l2| ==> '\n' !in l2[i]
    requires '\n' !in m1 && '\n' !in p1 && '\n' !in q1 && '\n' !in s1 && '\n' !in d1
    requires '\n' !in m2 && '\n' !in p2 && '\n' !in q2 && '\n' !in s2 && '\n' !in d2
    requires CanonicalRequest(m1, p1, q1, l1, s1, d1) == CanonicalRequest(m2, p2, q2, l2, s2, d2)
    ensures Upper(m1) == Upper(m2) && p1 == p2 && q1 == q2 && l1 == l2 && s1 == s2 && d1 == d2
  {
    CanonicalRequestLines(m1, p1, q1, l1, s1, d1);
    CanonicalRequestLines(m2, p2, q2, l2, s2, d2);
    var a := [Upper(m1), p1, q1] + l1 + [s1, d1];
    var b := [Upper(m2), p2, q2] + l2 + [s2, d2];
    assert a == b;
    assert |l1| == |l2|;
    assert l1 == a[3..3 + |l1|] && l2 == b[3..3 + |l2|];
  }

  // ---------------------------------------------------------------- signing

  /** The three header values the authenticator requires, plus the header
      lines named by the signed-header list. */
  datatype AuthHeaders = AuthHeaders(signature: string, timestamp: string, signedHeaders: string, lines: seq<string>)

  /** Every header name the authenticator looks up, in lookup order: the three
      fixed ones, then (once the list itself is found) each declared signed
      header. */
  function RequiredNames(headers: seq<Header>): seq<string>
  {
    [SignatureHeader, TimestampHeader, SignedHeadersHeader]
      + match GetHeader(headers, SignedHeadersHeader)
        case Success(list) => Split(list, ';')
        case Failure(_) => []
  }

  /** The first missing required header, stage by stage. */
  lemma {:induction false} FirstAbsentOfRequired(headers: seq<Header>)
    ensures FirstAbsent(headers, RequiredNames(headers))
         == if !Present(headers, SignatureHeader) then Some(SignatureHeader)
            else if !Present(headers, TimestampHeader) then Some(TimestampHeader)
            else if !Present(headers, SignedHeadersHeader) then Some(SignedHeadersHeader)
            else FirstAbsent(headers, Split(GetHeader(headers, SignedHeadersHeader).value, ';'))
  {
    var fixed := [SignatureHeader, TimestampHeader, SignedHeadersHeader];
    var declared := if Present(headers, SignedHeadersHeader)
                    then Split(GetHeader(headers, SignedHeadersHeader).value, ';') else [];
    assert RequiredNames(headers) == fixed + declared;
    FirstAbsentAppend(headers, fixed, declared);
    assert fixed[1..] == [TimestampHeader, SignedHeadersHeader];
    assert fixed[2..] == [SignedHeadersHeader];
    assert fixed[3..] == [];
    assert FirstAbsent(headers, fixed[3..]) == None;
    assert FirstAbsent(headers, fixed[2..]) == if !Present(headers, SignedHeadersHeader) then Some(SignedHeadersHeader) else None;
  }

  /** The header stage: every required header looked up in order, the first
      one missing being the error. */
  function ReadAuthHeaders(headers: seq<Header>): (r: Result<AuthHeaders, HmacError>)
    ensures r.Failure? <==> FirstAbsent(headers, RequiredNames(headers)).Some?
    ensures r.Failure? ==> r.error == MissingHeader(FirstAbsent(headers, RequiredNames(headers)).value)
    ensures r.Success? ==> Present(headers, SignatureHeader) && Present(headers, TimestampHeader)
                           && Present(headers, SignedHeadersHeader)
    ensures r.Success? ==> && r.value.signature == GetHeader(headers, SignatureHeader).value
                           && r.value.timestamp == GetHeader(headers, TimestampHeader).value
                           && r.value.signedHeaders == GetHeader(headers, SignedHeadersHeader).value
    ensures r.Success? ==> var names := Split(r.value.signedHeaders, ';');
                           && |r.value.lines| == |names|
                           && forall i :: 0 <= i < |names| ==>
                                && Present(headers, names[i])
                                && r.value.lines[i] == HeaderLine(names[i], GetHeader(headers, names[i]).value)
  {
    FirstAbsentOfRequired(headers);
    match GetHeader(headers, SignatureHeader)
    case Failure(e) => Failure(e)
    case Success(signature) =>
      match GetHeader(headers, TimestampHeader)
      case Failure(e) => Failure(e)
      case Success(timestamp) =>
        match GetHeader(headers, SignedHeadersHeader)
        case Failure(e) => Failure(e)
        case Success(signedHeaders) =>
          assert FirstAbsent(headers, RequiredNames(headers)) == FirstAbsent(headers, Split(signedHeaders, ';'));
          match SignedHeaderLines(headers, Split(signedHeaders, ';'))
          case Failure(e) => Failure(e)
          case Success(lines) => Success(AuthHeaders(signature, timestamp, signedHeaders, lines))
  }

  function Base64Sha256(p: Primitives, s: string): string
  {
    p.base64(p.sha256(s))
  }

  /** The canonical request of `req` under the headers read from it. */
  function RequestMaterial(req: ApiRequest, auth: AuthHeaders, p: Primitives): string
  {
    CanonicalRequest(req.httpMethod, req.rawPath, req.rawQueryString, auth.lines, auth.signedHeaders,
                     Base64Sha256(p, req.body))
  }

  /** What the authenticator signs, read back line by line: the uppercased
      method, the raw path, the raw query, the declared header lines, the
      signed-header list as received, and the body digest. */
  lemma RequestMaterialLines(req: ApiRequest, auth: AuthHeaders, p: Primitives)
    requires |auth.lines| >= 1
    requires forall i :: 0 <= i < |auth.lines| ==> '\n' !in auth.lines[i]
    requires '\n' !in req.httpMethod && '\n' !in req.rawPath && '\n' !in req.rawQueryString
    requires '\n' !in auth.signedHeaders && '\n' !in p.base64(p.sha256(req.body))
    ensures Split(RequestMaterial(req, auth, p), '\n')
         == [Upper(req.httpMethod), req.rawPath, req.rawQueryString] + auth.lines
            + [auth.signedHeaders, p.base64(p.sha256(req.body))]
  {
    CanonicalRequestLines(req.httpMethod, req.rawPath, req.rawQueryString, auth.lines, auth.signedHeaders,
                          Base64Sha256(p, req.body));
  }

  function StringToSign(timestamp: string, materialDigest: string): string
  {
    Join([HmacDigestAlgorithm, timestamp, materialDigest], "\n")
  }

  /** The signature the sender should have sent: lowercase hex of the HMAC of
      the string to sign. */
  function ExpectedSignature(req: ApiRequest, auth: AuthHeaders, secret: string, p: Primitives): string
  {
    Hex.Encode(p.hmacSha256(secret, StringToSign(auth.timestamp, Base64Sha256(p, RequestMaterial(req, auth, p)))))
  }

  /** The string to sign read back line by line: algorithm name, the timestamp
      exactly as received, and the digest of the canonical request. */
  lemma StringToSignLines(timestamp: string, materialDigest: string)
    requires '\n' !in timestamp && '\n' !in materialDigest
    ensures Split(StringToSign(timestamp, materialDigest), '\n') == [HmacDigestAlgorithm, timestamp, materialDigest]
  {
    SplitJoin([HmacDigestAlgorithm, timestamp, materialDigest], '\n');
  }

  // ---------------------------------------------------------------- timestamp

  /** Whole seconds of a millisecond epoch, rounded down. */
  function ServerSeconds(timeEpochMillis: int): (s: int)
    ensures s * 1000 <= timeEpochMillis < s * 1000 + 1000
  {
    timeEpochMillis / 1000
  }

  /** The replay window: the distance between server and client seconds, or
      the error for an unreadable or too distant timestamp. */
  function ValidateTimestamp(currentTime: int, clientTimeStr: string, parse: string -> Option<int>)
    : (r: Result<nat, HmacError>)
    ensures parse(clientTimeStr).None? ==>
              r == Failure(HmacError("Invalid timestamp '" + clientTimeStr + "'", InvalidTimestamp))
    ensures parse(clientTimeStr).Some? ==>
              var t := parse(clientTimeStr).value;
              && (r.Success? <==> -(TimestampToleranceSeconds as int) <= currentTime - t <= TimestampToleranceSeconds)
              && (r.Success? ==> r.value == Abs(currentTime - t))
              && (r.Failure? ==>
                    r.error == HmacError("Request expired, given timestamp (" + clientTimeStr
                                         + ") differs too much (" + IntToString(Abs(currentTime - t))
                                         + " seconds) from server time (" + IntToString(currentTime) + ")",
                                         ExpiredTimestamp))
  {
    match parse(clientTimeStr)
    case None => Failure(HmacError("Invalid timestamp '" + clientTimeStr + "'", InvalidTimestamp))
    case Some(clientTime) =>
      var timeDiff := Abs(currentTime - clientTime);
      if timeDiff > TimestampToleranceSeconds then
        Failure(HmacError("Request expired, given timestamp (" + clientTimeStr + ") differs too much ("
                          + IntToString(timeDiff) + " seconds) from server time (" + IntToString(currentTime) + ")",
                          ExpiredTimestamp))
      else Success(timeDiff)
  }

  /** The window is closed: 900 seconds either way is accepted, 901 is not. */
  lemma ToleranceBoundaryIsInclusive(currentTime: int, s: string, parse: string -> Option<int>)
    ensures parse(s) == Some(currentTime - 900) ==> ValidateTimestamp(currentTime, s, parse) == Success(900)
    ensures parse(s) == Some(currentTime + 900) ==> ValidateTimestamp(currentTime, s, parse) == Success(900)
    ensures parse(s) == Some(currentTime - 901) ==> ValidateTimestamp(currentTime, s, parse).Failure?
    ensures parse(s) == Some(currentTime + 901) ==> ValidateTimestamp(currentTime, s, parse).Failure?
  {
  }

  // ---------------------------------------------------------------- the decision

  /** The headers are all there and the received signature is the expected one. */
  predicate SignatureMatches(req: ApiRequest, secret: string, p: Primitives)
  {
    match ReadAuthHeaders(req.headers)
    case Success(auth) => ExpectedSignature(req, auth, secret, p) == auth.signature
    case Failure(_) => false
  }

  /** The headers are all there but the received signature is not the expected one. */
  predicate SignatureDiffers(req: ApiRequest, secret: string, p: Primitives)
  {
    match ReadAuthHeaders(req.headers)
    case Success(auth) => ExpectedSignature(req, auth, secret, p) != auth.signature
    case Failure(_) => false
  }

  /** The timestamp header as read by the primitive parser (`None` also when
      the header is missing). */
  function ClientTime(req: ApiRequest, p: Primitives): Option<int>
  {
    match ReadAuthHeaders(req.headers)
    case Success(auth) => p.parseNumber(auth.timestamp)
    case Failure(_) => None
  }

  /** Whether the parsed timestamp lies within the tolerance of the server's
      receipt second (`None` when there is no parsed timestamp). */
  function ClientTimeInWindow(req: ApiRequest, p: Primitives): Option<bool>
  {
    match ClientTime(req, p)
    case Some(t) => Some(Abs(ServerSeconds(req.timeEpoch) - t) <= TimestampToleranceSeconds)
    case None => None
  }

  /** Authenticates `req` with the shared `secret`. Each error kind is decided by
      the first stage that fails, in the order headers, signature, timestamp
      parse, timestamp window; acceptance needs all four to pass. */
  function ValidateHmac(req: ApiRequest, secret: string, p: Primitives): (r: Result<bool, HmacError>)
    ensures r.Success? ==> r.value
    ensures (r.Failure? && r.error.kind == MalformedRequest)
        <==> FirstAbsent(req.headers, RequiredNames(req.headers)).Some?
    ensures r.Failure? && r.error.kind == MalformedRequest
        ==> r.error == MissingHeader(FirstAbsent(req.headers, RequiredNames(req.headers)).value)
    ensures (r.Failure? && r.error.kind == NotAuthenticated) <==> SignatureDiffers(req, secret, p)
    ensures r.Failure? && r.error.kind == NotAuthenticated ==> r.error.message == SignatureMismatchMessage
    ensures (r.Failure? && r.error.kind == InvalidTimestamp)
        <==> SignatureMatches(req, secret, p) && ClientTime(req, p).None?
    ensures (r.Failure? && r.error.kind == ExpiredTimestamp)
        <==> SignatureMatches(req, secret, p) && ClientTimeInWindow(req, p) == Some(false)
    ensures r.Success?
        <==> SignatureMatches(req, secret, p) && ClientTimeInWindow(req, p) == Some(true)
    ensures SignatureMatches(req, secret, p) && r.Failure? ==>
              r.error == ValidateTimestamp(ServerSeconds(req.timeEpoch), ReadAuthHeaders(req.headers).value.timestamp,
                                           p.parseNumber).error
  {
    var auth :- ReadAuthHeaders(req.headers);
    var calculatedSignature := ExpectedSignature(req, auth, secret, p);
    if calculatedSignature != auth.signature then
      Failure(HmacError(SignatureMismatchMessage, NotAuthenticated))
    else
      var _ :- ValidateTimestamp(ServerSeconds(req.timeEpoch), auth.timestamp, p.parseNumber);
      Success(true)
  }

  // ---------------------------------------------------------------- consequences

  /** The signature is compared before the timestamp is even parsed: once it
      differs, the timestamp reading plays no part and the outcome is the
      generic mismatch error. */
  lemma MismatchIgnoresTimestamp(req: ApiRequest, secret: string, p: Primitives, parse: string -> Option<int>)
    ensures SignatureDiffers(req, secret, p) ==>
              && ValidateHmac(req, secret, p) == Failure(HmacError(SignatureMismatchMessage, NotAuthenticated))
              && ValidateHmac(req, secret, p.(parseNumber := parse)) == ValidateHmac(req, secret, p)
  {
  }

  /** The expected signature is always lowercase hex, and the comparison is
      exact, so a received signature in uppercase hex (or anything else that
      is not lowercase hex) never matches; by `ValidateHmac`'s contract the
      outcome is then NOT_AUTHENTICATED. */
  lemma NonLowerHexSignatureRejected(req: ApiRequest, auth: AuthHeaders, secret: string, p: Primitives)
    ensures !Hex.IsLowerHex(auth.signature) ==> ExpectedSignature(req, auth, secret, p) != auth.signature
    ensures ReadAuthHeaders(req.headers) == Success(auth) && !Hex.IsLowerHex(auth.signature)
            ==> SignatureDiffers(req, secret, p)
  {
    assert Hex.IsLowerHex(ExpectedSignature(req, auth, secret, p));
  }

  /** The received signature matches exactly when it decodes to the HMAC of the
      string to sign. */
  lemma SignatureMatchIsMacMatch(req: ApiRequest, auth: AuthHeaders, secret: string, p: Primitives)
    ensures ExpectedSignature(req, auth, secret, p) == auth.signature
        <==> Hex.Decode(auth.signature)
             == Some(p.hmacSha256(secret, StringToSign(auth.timestamp, Base64Sha256(p, RequestMaterial(req, auth, p)))))
  {
    var mac := p.hmacSha256(secret, StringToSign(auth.timestamp, Base64Sha256(p, RequestMaterial(req, auth, p))));
    Hex.DecodeEncode(mac);
    if Hex.Decode(auth.signature) == Some(mac) {
      Hex.EncodeDecode(auth.signature);
    }
  }

  /** Nothing about the secret leaks through the outcome beyond whether the
      signature matched: two secrets that agree on that give the same result,
      message included. */
  lemma OutcomeDependsOnSecretOnlyThroughMatch(req: ApiRequest, s1: string, s2: string, p: Primitives)
    requires SignatureMatches(req, s1, p) == SignatureMatches(req, s2, p)
    ensures ValidateHmac(req, s1, p) == ValidateHmac(req, s2, p)
  {
  }

  /** Header lookup only sees the requested name up to case. */
  lemma GetHeaderIgnoresCase(headers: seq<Header>, a: string, b: string)
    requires SameIgnoringCase(a, b)
    ensures GetHeader(headers, a).Success? == GetHeader(headers, b).Success?
    ensures GetHeader(headers, a).Success? ==> GetHeader(headers, a).value == GetHeader(headers, b).value
  {
    FindHeaderIgnoresCase(headers, a, b);
  }
}

=== FILE: strings.dfy ===
/** String helpers with the semantics of JavaScript's `Array.prototype.join`,
    `String.prototype.split` (with a one-character separator) and integer
    `toString`. */
module Strings {

  /** `parts.join(sep)`: the parts with `sep` between neighbours. */
  function Join(parts: seq<string>, sep: string): string
  {
    if |parts| == 0 then ""
    else if |parts| == 1 then parts[0]
    else parts[0] + sep + Join(parts[1..], sep)
  }

  /** `s.split(c)`: the maximal `c`-free pieces of `s`, left to right. An empty
      string splits into one empty piece, and two adjacent separators enclose
      an empty piece. */
  function Split(s: string, c: char): (pieces: seq<string>)
    ensures |pieces| >= 1
    ensures forall i :: 0 <= i < |pieces| ==> c !in pieces[i]
  {
    if |s| == 0 then [""]
    else
      var rest := Split(s[1..], c);
      if s[0] == c then [""] + rest
      else [[s[0]] + rest[0]] + rest[1..]
  }

  /** Joining two non-empty lists is joining their joins. */
  lemma {:induction false} JoinAppend(x: seq<string>, y: seq<string>, sep: string)
    requires |x| >= 1 && |y| >= 1
    ensures Join(x + y, sep) == Join(x, sep) + sep + Join(y, sep)
    decreases |x|
  {
    if |x| == 1 {
      assert (x + y)[1..] == y;
    } else {
      assert (x + y)[1..] == x[1..] + y;
      JoinAppend(x[1..], y, sep);
    }
  }

  /** A joined sub-list can be spliced into its surrounding list. */
  lemma {:induction false} JoinFlatten(a: seq<string>, b: seq<string>, c: seq<string>, sep: string)
    requires |b| >= 1
    ensures Join(a + [Join(b, sep)] + c, sep) == Join(a + b + c, sep)
  {
    var mid := [Join(b, sep)];
    if |c| >= 1 {
      JoinAppend(mid, c, sep);
      JoinAppend(b, c, sep);
    } else {
      assert mid + c == mid;
      assert b + c == b;
    }
    assert Join(mid + c, sep) == Join(b + c, sep);
    if |a| >= 1 {
      assert a + mid + c == a + (mid + c);
      assert a + b + c == a + (b + c);
      JoinAppend(a, mid + c, sep);
      JoinAppend(a, b + c, sep);
    } else {
      assert a + mid + c == mid + c;
      assert a + b + c == b + c;
    }
  }

  /** Re-joining the pieces of a split with the separator gives back the string. */
  lemma {:induction false} JoinSplit(s: string, c: char)
    ensures Join(Split(s, c), [c]) == s
  {
    if |s| > 0 {
      var rest := Split(s[1..], c);
      JoinSplit(s[1..], c);
      if s[0] == c {
        assert Join([""] + rest, [c]) == "" + [c] + Join(rest, [c]) by {
          assert ([""] + rest)[1..] == rest;
        }
        assert s == [c] + s[1..];
      } else {
        var head := [s[0]] + rest[0];
        if |rest| == 1 {
          assert Join(rest, [c]) == rest[0];
        } else {
          assert ([head] + rest[1..])[1..] == rest[1..];
          assert Join(rest, [c]) == rest[0] + [c] + Join(rest[1..], [c]);
        }
        assert s == [s[0]] + s[1..];
      }
    }
  }

  /** A separator-free string is a single piece. */
  lemma {:induction false} SplitWithoutSeparator(s: string, c: char)
    requires c !in s
    ensures Split(s, c) == [s]
  {
    if |s| > 0 {
      SplitWithoutSeparator(s[1..], c);
      assert s == [s[0]] + s[1..];
    }
  }

  /** Splitting `a + c + t` for a separator-free `a` yields `a` followed by the
      pieces of `t`. */
  lemma {:induction false} SplitAfterPiece(a: string, t: string, c: char)
    requires c !in a
    ensures Split(a + [c] + t, c) == [a] + Split(t, c)
  {
    var s := a + [c] + t;
    if |a| == 0 {
      assert s[1..] == t;
    } else {
      assert s[1..] == a[1..] + [c] + t;
      SplitAfterPiece(a[1..], t, c);
      assert a == [a[0]] + a[1..];
    }
  }

  /** Splitting a join of separator-free parts gives back the parts. */
  lemma {:induction false} SplitJoin(parts: seq<string>, c: char)
    requires |parts| >= 1
    requires forall i :: 0 <= i < |parts| ==> c !in parts[i]
    ensures Split(Join(parts, [c]), c) == parts
    decreases |parts|
  {
    if |parts| == 1 {
      SplitWithoutSeparator(parts[0], c);
    } else {
      SplitJoin(parts[1..], c);
      SplitAfterPiece(parts[0], Join(parts[1..], [c]), c);
      assert parts == [parts[0]] + parts[1..];
    }
  }

  /** Equal joins of separator-free lists come from equal lists. */
  lemma {:induction false} JoinInjective(xs: seq<string>, ys: seq<string>, c: char)
    requires |xs| >= 1 && |ys| >= 1
    requires forall i :: 0 <= i < |xs| ==> c !in xs[i]
    requires forall i :: 0 <= i < |ys| ==> c !in ys[i]
    ensures Join(xs, [c]) == Join(ys, [c]) ==> xs == ys
  {
    SplitJoin(xs, c);
    SplitJoin(ys, c);
  }

  /** A character found in no part and not in the separator is not in the join. */
  lemma {:induction false} JoinAvoids(parts: seq<string>, sep: string, c: char)
    requires c !in sep
    requires forall i :: 0 <= i < |parts| ==> c !in parts[i]
    ensures c !in Join(parts, sep)
    decreases |parts|
  {
    if |parts| > 1 {
      JoinAvoids(parts[1..], sep, c);
    }
  }

  /** The decimal digit for `d`. */
  function DigitChar(d: nat): char
    requires d < 10
  {
    ('0' as int + d) as char
  }

  /** The number a string of decimal digits denotes (most significant first). */
  function DecimalValue(s: string): nat
    requires forall i :: 0 <= i < |s| ==> '0' <= s[i] <= '9'
  {
    if s == [] then 0
    else 10 * DecimalValue(s[..|s| - 1]) + (s[|s| - 1] as int - '0' as int)
  }

  /** Decimal digits of a natural number, without leading zeros. */
  function NatToString(n: nat): (s: string)
    ensures |s| >= 1
    ensures forall i :: 0 <= i < |s| ==> '0' <= s[i] <= '9'
    ensures DecimalValue(s) == n
    ensures |s| > 1 ==> s[0] != '0'
  {
    if n < 10 then [DigitChar(n)]
    else
      var init := NatToString(n / 10);
      var s := init + [DigitChar(n % 10)];
      assert s[..|s| - 1] == init;
      s
  }

  /** What a template literal prints for an integral JavaScript number whose
      magnitude is below 10^21 (larger ones print in exponent notation). */
  function IntToString(n: int): (s: string)
    ensures |s| >= 1 && (s[0] == '-' <==> n < 0)
    ensures n < 0 ==> (forall i :: 1 <= i < |s| ==> '0' <= s[i] <= '9') && DecimalValue(s[1..]) == -n
    ensures n >= 0 ==> (forall i :: 0 <= i < |s| ==> '0' <= s[i] <= '9') && DecimalValue(s) == n
  {
    if n < 0 then "-" + NatToString(-n) else NatToString(n)
  }
}

=== FILE: validation.dfy ===
/** Schema-check plumbing: formatting a rejected parse's issues into one
    message and deciding what `withValidation` hands back. The schema check
    itself is an input (its outcome), not modelled. */
module Validation {
  import opened Wrappers
  import opened Strings

  /** One step of an issue's location: an object key or an array index. */
  datatype PathSegment = Key(key: string) | Index(index: nat)

  datatype Issue = Issue(path: seq<PathSegment>, message: string)

  /** What a schema's safe parse returns: the parsed data, or the issues found. */
  datatype ParseOutcome<T> = Parsed(data: T) | Rejected(issues: seq<Issue>)

  datatype ValidationError = ValidationError(message: string)

  /** How a call of `withValidation` ends: with the parsed data, with the
      unvalidated input handed back after the failure callback returned, or
      with the error the failure callback threw. `reported` is the message the
      callback was given. */
  datatype ValidationRun<I, T, E> =
    | Valid(data: T)
    | ReturnedInput(input: I, reported: string)
    | Threw(error: E, reported: string)
  {
    /** The messages the failure callback was invoked with, in call order. */
    function CallbackCalls(): seq<string>
    {
      if Valid? then [] else [reported]
    }
  }

  function SegmentText(segment: PathSegment): string
  {
    match segment
    case Key(k) => k
    case Index(n) => NatToString(n)
  }

  function SegmentTexts(path: seq<PathSegment>): seq<string>
  {
    seq(|path|, i requires 0 <= i < |path| => SegmentText(path[i]))
  }

  /** An issue as one line: dotted path, a colon and a space, the message. */
  function IssueLine(issue: Issue): string
  {
    Join(SegmentTexts(issue.path), ".") + ": " + issue.message
  }

  function IssueLines(issues: seq<Issue>): seq<string>
  {
    seq(|issues|, i requires 0 <= i < |issues| => IssueLine(issues[i]))
  }

  /** All issues, one per line, in the order the schema reported them. */
  function FormatIssues(issues: seq<Issue>): string
  {
    Join(IssueLines(issues), "\n")
  }

  /** No key of the path contains `c`. */
  predicate KeysAvoid(path: seq<PathSegment>, c: char)
  {
    forall i :: 0 <= i < |path| ==> path[i].Key? ==> c !in path[i].key
  }

  /** Reading the formatted message back: with line-break-free keys and
      messages, its lines are the issues' lines, one per issue, in order. */
  lemma FormatIssuesLines(issues: seq<Issue>)
    requires |issues| >= 1
    requires forall i :: 0 <= i < |issues| ==> '\n' !in issues[i].message && KeysAvoid(issues[i].path, '\n')
    ensures Split(FormatIssues(issues), '\n') == IssueLines(issues)
    ensures |Split(FormatIssues(issues), '\n')| == |issues|
  {
    var lines := IssueLines(issues);
    forall i | 0 <= i < |lines|
      ensures '\n' !in lines[i]
    {
      var texts := SegmentTexts(issues[i].path);
      forall j | 0 <= j < |texts|
        ensures '\n' !in texts[j]
      {
        if issues[i].path[j].Index? {
          var digits := NatToString(issues[i].path[j].index);
          assert forall k :: 0 <= k < |digits| ==> digits[k] != '\n';
        }
      }
      JoinAvoids(texts, ".", '\n');
    }
    SplitJoin(lines, '\n');
  }

  /** Reading a path back: with dot-free keys, splitting the dotted path on
      `.` gives the segments' texts. */
  lemma PathTextSegments(path: seq<PathSegment>)
    requires |path| >= 1
    requires KeysAvoid(path, '.')
    ensures Split(Join(SegmentTexts(path), "."), '.') == SegmentTexts(path)
  {
    var texts := SegmentTexts(path);
    forall j | 0 <= j < |texts|
      ensures '.' !in texts[j]
    {
      if path[j].Index? {
        var digits := NatToString(path[j].index);
        assert forall k :: 0 <= k < |digits| ==> digits[k] != '.';
      }
    }
    SplitJoin(texts, '.');
  }

  /** Validates `input` given its schema outcome. Accepted data comes back
      without the callback being called; on rejection the callback is called
      exactly once with the formatted issues, and the input itself comes back
      if the callback returns. `onFailure` answers `Some(e)` when it throws `e`. */
  function WithValidation<I, T, E>(outcome: ParseOutcome<T>, input: I, onFailure: string -> Option<E>)
    : (r: ValidationRun<I, T, E>)
    ensures r.Valid? <==> outcome.Parsed?
    ensures outcome.Parsed? ==> r.data == outcome.data && r.CallbackCalls() == []
    ensures outcome.Rejected? ==> r.CallbackCalls() == [FormatIssues(outcome.issues)]
    ensures r.ReturnedInput? <==> outcome.Rejected? && onFailure(r.reported).None?
    ensures r.ReturnedInput? ==> r.input == input
    ensures r.Threw? ==> onFailure(r.reported) == Some(r.error)
  {
    match outcome
    case Rejected(issues) =>
      var validationMessage := FormatIssues(issues);
      (match onFailure(validationMessage)
       case Some(e) => Threw(e, validationMessage)
       case None => ReturnedInput(input, validationMessage))
    case Parsed(data) => Valid(data)
  }

  /** The failure callback that always throws. */
  function OnValidationFailureFatal(validationMessage: string): (r: Option<ValidationError>)
    ensures r.Some?
  {
    Some(ValidationError("Validation failed: " + validationMessage))
  }

  /** With the fatal callback, validation either yields the parsed data or
      throws a validation error whose message is the fixed prefix followed by
      the formatted issues; the unvalidated input never comes back. */
  lemma FatalValidation<I, T>(outcome: ParseOutcome<T>, input: I)
    ensures !WithValidation(outcome, input, OnValidationFailureFatal).ReturnedInput?
    ensures outcome.Parsed? ==> WithValidation(outcome, input, OnValidationFailureFatal) == Valid(outcome.data)
    ensures outcome.Rejected? ==>
              WithValidation(outcome, input, OnValidationFailureFatal).Threw?
              && WithValidation(outcome, input, OnValidationFailureFatal).error
                 == ValidationError("Validation failed: " + FormatIssues(outcome.issues))
  {
  }
}

=== FILE: wrappers.dfy ===
/** Failure-carrying result types shared by every module of the model. */
module Wrappers {

  /** An optional value; `None` stands for JavaScript's `undefined`. */
  datatype Option<+T> = None | Some(value: T)

  /** The outcome of a step that may throw: `Failure` carries the thrown error. */
  datatype Result<+R, +E> = Success(value: R) | Failure(error: E) {

    predicate IsFailure() {
      Failure?
    }

    function PropagateFailure<U>(): Result<U, E>
      requires Failure?
    {
      Failure(error)
    }

    function Extract(): R
      requires Success?
    {
      value
    }
  }
}
